=== FILE: README.md ===
# Transaction ledger of the Fenmo finance tracker, modelled in Dafny

This project models the transaction ledger of the Fenmo personal finance
tracker: the server's rules for creating, deduplicating, listing, updating and
deleting income and expense transactions, the constraints of the transaction
schema, and the derivations the client computes over the fetched list (the
dashboard's balance, display order and search, and the analysis view's
per-category breakdown).

Modules, following the program's structure:

- `Schema` (`transaction.dfy`) is the transaction document and what the schema
  guarantees. Required fields must be non-empty strings. `type` must be
  "expense" or "income" and defaults to "expense". `idempotencyKey` has a
  sparse unique index. The store is a sequence of documents in insertion
  order. Its operations are `Insert` (`Model.create`), `Save`
  (`document.save()`) and `RemoveById` (`document.deleteOne()`). `Insert`
  and `Save` validate and enforce the unique indexes; all three keep `Valid`.
- `ExpenseRoutes` (`expense_routes.dfy`) holds the four route handlers as pure
  functions from a store to an `Outcome` (a new store and a reply with its
  HTTP status). The authenticated caller is a plain user id. The id the store
  would give a new document is a parameter.
- `Fetched` (`fetched.dfy`) is a transaction as the client receives it in
  JSON, with every field optional. It also holds `parseAmount`, which both
  client files share.
- `Dashboard` (`dashboard.dfy`) and `Analysis` (`analysis.dfy`) are the two
  client views.
- `Consistency` (`consistency.dfy`) relates the two views' balances to each
  other and to the server.
- `Wrappers`, `Seqs`, `Sorting` and `Text` are generic helpers. They cover
  optional values, order-keeping filters and sums, a stable sort, and the
  string functions `trim`, `toLowerCase`, `includes` and code-point order.

Amounts are whole numbers of paise (`int`). This stands in for the exact
Decimal128 value the schema stores. The client sums `parseFloat` values; the
model abstracts that away and sums the exact integers. Dates are integers
(milliseconds, as `getTime` returns). Ids, user ids, categories and keys are
strings. A request field that is `None` is absent. JavaScript truthiness is
explicit: a string is truthy when present and non-empty. A request amount is
either a JSON number or a string, since the client's form sends the text of
its input (`ExpenseRoutes.AmountInput`). A number is truthy when non-zero, a
string when non-empty, so the string "0" is truthy. A string carries its
numeric value, or none when it is not a number.

Where the code does less than a ledger might be expected to guarantee, the
model follows the code:

- Update does not check the amount. An owner can store a negative
  amount (`ExpenseRoutes.UpdateAcceptsNegativeAmount`). So "every stored
  amount is positive" is not an invariant. `Schema.Valid` states only what
  the schema enforces.
- A duplicate-key failure on create is not recovered. It answers 500. In a
  sequential run this happens only for a falsy key that is present (the model
  represents only ""). Such a key skips the lookup, but it is still stored
  (`ExpenseRoutes.CreateServerErrors`).
- A non-numeric amount string passes the amount check, because `NaN <= 0` is
  false. The store's cast then rejects it: create answers 500 unless its key
  finds a stored document, and an owner's update answers 500
  (`ExpenseRoutes.CreateServerErrors`, `ExpenseRoutes.UpdateGate`).
- On update, the amount "0" sent by the form is truthy and is stored as 0,
  while the number 0 keeps the stored amount
  (`ExpenseRoutes.UpdateZeroAmountText`).
- The idempotency lookup is global, not scoped to the caller. A retry by
  another user with the same key gets the first user's document
  (`ExpenseRoutes.RetryReturnsOriginal` holds for any second caller).
- Update answers 404 both for a missing document and for someone else's.
  Delete tells the two apart (404 and 401).
- The dashboard subtracts every record whose type is not "income", including
  records with no type. The analysis view counts only type "expense". The two
  balances differ by exactly the untyped amounts (`Consistency.BalanceGap`).
  They agree on anything the server stores
  (`Consistency.BalancesAgreeOnStoredData`).
- The percentage guard is `totalExpenses > 0`, not `!= 0`. A negative total
  also gives 0.

## Model

| member | source | states |
|---|---|---|
| `ExpenseRoutes.Validate` | server/routes/expenseRoutes.js:21-42 | accepts exactly when the amount is present and positive, the type is "income" or "expense", a date is present, and category and description are non-empty; otherwise the first failing check, in that order, is the one reported |
| `ExpenseRoutes.MessagesDistinct` | server/routes/expenseRoutes.js:22-42 | the four validation messages are pairwise different, so the message names the check that failed |
| `ExpenseRoutes.Create` | server/routes/expenseRoutes.js:11-63 | 400 exactly for unacceptable input, with the store unchanged, and its reason is the first failing check that `Validate` reports; 200 with a stored document exactly when the key is truthy and some document, of any owner, carries it, with the store unchanged; 201 appends exactly one document holding the caller as owner, the fresh id, the cast amount and the request's other fields and key, and happens only when the amount casts; every outcome keeps the schema invariant |
| `ExpenseRoutes.CreateServerErrors` | server/routes/expenseRoutes.js:18-63 | for acceptable input by a signed-in caller with an unused id: an amount the cast rejects gives 500 exactly when no stored document carries the truthy key; a castable amount gives 500 exactly when the empty key collides with a stored empty key |
| `ExpenseRoutes.RetryReturnsOriginal` | server/routes/expenseRoutes.js:46-51 | after a create with a truthy key, a second acceptable create with that key, by any caller, returns the created document with 200 and writes nothing |
| `ExpenseRoutes.RetriesAreNoOps` | server/routes/expenseRoutes.js:46-51 | any number of acceptable creates carrying a stored key leave the store unchanged and each returns that document |
| `ExpenseRoutes.KeylessCreatesDuplicate` | server/routes/expenseRoutes.js:53-63 | two acceptable creates without a key and with a castable amount add two documents with distinct ids and the same fields; with an amount the cast rejects both answer 500 and nothing is written |
| `ExpenseRoutes.Selected` | server/routes/expenseRoutes.js:82-91 | keeps exactly the caller's documents, of the exact category when one is given, of the given type only when it is "income" or "expense", with their multiplicities, in store order |
| `ExpenseRoutes.SortByDate` | server/routes/expenseRoutes.js:97-101 | a permutation of its input with non-increasing dates for newest first and non-decreasing dates otherwise |
| `ExpenseRoutes.List` | server/routes/expenseRoutes.js:79-105 | returns exactly the selected documents; non-increasing dates for `date_desc`, non-decreasing for `date_asc`, store order for any other sort value |
| `ExpenseRoutes.Delete` | server/routes/expenseRoutes.js:115-127 | 404 exactly when no document has the id; 404 and 401 leave the store unchanged; a removal drops the documents with that id and keeps every other one in order; the schema invariant is kept |
| `ExpenseRoutes.DeleteGate` | server/routes/expenseRoutes.js:117-126 | on a valid store, 401 exactly when the document exists and belongs to someone else, removal exactly when the caller owns it, and afterwards no document has the id |
| `ExpenseRoutes.Merge` | server/routes/expenseRoutes.js:140-144 | id, owner and key never change; each of category, description, date and type takes the supplied value when it is truthy and keeps the stored one otherwise; a truthy amount is stored as its cast value, and one the cast rejects leaves the stored amount |
| `ExpenseRoutes.MergeChangesOnlySupplied` | server/routes/expenseRoutes.js:140-144 | a field changes only if the request supplies a truthy value for it; an empty request changes nothing; merging twice equals merging once |
| `ExpenseRoutes.MergeCannotClear` | server/routes/expenseRoutes.js:140-146 | a conforming document keeps non-empty category, description and owner under any update, and still conforms unless a truthy type outside the enum is supplied |
| `ExpenseRoutes.Update` | server/routes/expenseRoutes.js:134-154 | replies 404, 200 or 500; anything but 200 leaves the store unchanged; 200 returns the caller's own document with the id, merged with the request, written back in place with every other document untouched; the schema invariant is kept |
| `ExpenseRoutes.UpdateGate` | server/routes/expenseRoutes.js:137-150 | on a valid store, 404 exactly when the caller owns no document with the id (missing and foreign collapsed), and 500 exactly when an owned document is given a truthy type outside the enum or an amount the cast rejects |
| `ExpenseRoutes.UpdateAcceptsNegativeAmount` | server/routes/expenseRoutes.js:139-147 | an owner's update with amount -500 is stored as given |
| `ExpenseRoutes.UpdateZeroAmountText` | server/routes/expenseRoutes.js:140 | an owner's update with the amount string "0", as the form sends it, stores 0; with the number 0 the stored amount is kept |
| `Schema.NewDocumentConforms` | server/models/Transaction.js:3-9 | an omitted type becomes "expense"; a new document passes validation exactly when owner, category and description are non-empty and the type is omitted or in the enum |
| `Schema.FindById` | server/routes/expenseRoutes.js:117 | a found document is stored and has the id; nothing is found exactly when no stored document has the id |
| `Schema.FindByKey` | server/routes/expenseRoutes.js:47 | a found document is stored and carries the key; nothing is found exactly when no stored document carries it |
| `Schema.FindByKeyUnique` | server/models/Transaction.js:10 | under the unique key index the lookup by key returns the one document carrying that key |
| `Schema.Insert` | server/models/Transaction.js:3-11 | succeeds exactly when the document passes validation and neither its id nor its present key is already stored; success appends it and keeps the schema invariant |
| `Schema.Save` | server/models/Transaction.js:3-11 | succeeds exactly when the document passes validation and no other document carries its present key; success writes it in place and keeps the schema invariant |
| `Schema.RemoveById` | server/routes/expenseRoutes.js:126 | keeps exactly the documents with another id, in order, and keeps the schema invariant |
| `Fetched.ParseAmount` | client/src/pages/dashboard.jsx:46-48 | the amount a fetched record carries, over exact amounts: the Decimal128 wrapper's value, else the plain value, else 0; its contract is stated by `Fetched.AmountRoundTrip` |
| `Fetched.AmountRoundTrip` | client/src/pages/dashboard.jsx:46-48 | the Decimal128 wrapper and a plain number parse to the same value, a missing amount to 0, and a stored amount survives its trip through JSON unchanged |
| `Dashboard.NetBalance` | client/src/pages/dashboard.jsx:51-54 | the reduce yields the sum of income amounts minus the sum of the amounts of every other record, records with no type included |
| `Dashboard.BalanceIgnoresOrder` | client/src/pages/dashboard.jsx:51-54 | the balance is the same for any reordering of the fetched list |
| `Dashboard.ShownBefore` | client/src/pages/dashboard.jsx:70-83 | the comparator as a relation: `a` may precede `b` when it is newer, or as new with an id not smaller; its contract is stated by `Dashboard.ShownBeforeIsPreorder` |
| `Dashboard.ShownBeforeIsPreorder` | client/src/pages/dashboard.jsx:70-83 | the comparator is total and transitive, so the sort is well defined |
| `Dashboard.SortForDisplay` | client/src/pages/dashboard.jsx:70-83 | a permutation of the fetched list, dates non-increasing (missing date as 0), and on equal dates ids non-increasing in code-point order (missing id as "") |
| `Dashboard.SortForDisplayIsStable` | client/src/pages/dashboard.jsx:70-83 | entries the comparator ranks the same keep the order the server sent them in |
| `Dashboard.Search` | client/src/pages/dashboard.jsx:90-100 | keeps, in order and with multiplicities, exactly the entries whose lowered description, category or type label (default "expense") contains the query |
| `Dashboard.Displayed` | client/src/pages/dashboard.jsx:69-101 | a blank search returns the sorted list itself; otherwise the lowered, trimmed query is non-empty and the result is the subsequence of the sorted list holding every entry found by it and no other |
| `Text.Trim` | client/src/pages/dashboard.jsx:86 | the result is a slice of the input with only white space around it, and neither starts nor ends with white space |
| `Text.TrimEmptyIffBlank` | client/src/pages/dashboard.jsx:86 | a string trims to nothing exactly when it is white space only |
| `Text.LowerKeepsBlankness` | client/src/pages/dashboard.jsx:86-88 | the blank check on the raw search agrees with the lowered, trimmed query |
| `Text.ToLower` | client/src/pages/dashboard.jsx:88-95 | same length, and each character is lowered on its own: ASCII capitals become small letters, everything else is kept |
| `Text.Contains` | client/src/pages/dashboard.jsx:96-98 | true exactly when the query occurs at some position of the string |
| `Text.LexLessTotal` | client/src/pages/dashboard.jsx:80-82 | distinct ids are always ordered one way or the other |
| `Text.LexLessTransitive` | client/src/pages/dashboard.jsx:80-82 | the id order is transitive |
| `Sorting.Sort` | client/src/pages/dashboard.jsx:70 | the result is a permutation of the input, ordered by the comparison relation |
| `Sorting.SortIsStable` | client/src/pages/dashboard.jsx:70 | the sort is stable: the elements of one rank appear in the result in their input order |
| `Seqs.Filter` | client/src/pages/dashboard.jsx:90 | keeps exactly the elements satisfying the predicate, all their occurrences, in order |
| `Seqs.SumByPermutation` | client/src/pages/dashboard.jsx:51 | a sum over a list is the same for any reordering of it |
| `Seqs.Dedup` | client/src/components/Analysis.jsx:21-27 | keeps each value once, holds exactly the values of its input, and orders them by their first occurrence in the input |
| `Analysis.IndexOf` | client/src/components/Analysis.jsx:21 | the position of the first slice with the name, or the length when there is none |
| `Analysis.Group` | client/src/components/Analysis.jsx:17-29 | the `reduce` over the expense records, folded from the left; its contract is stated by `Analysis.GroupNames`, `Analysis.GroupValues`, `Analysis.GroupTotal` and `Analysis.GroupEmpty` |
| `Analysis.GroupNames` | client/src/components/Analysis.jsx:17-29 | one slice per distinct category of the expense records, exact match, in order of first appearance |
| `Analysis.GroupValues` | client/src/components/Analysis.jsx:19-29 | each slice's value is the sum of that category's expense amounts |
| `Analysis.GroupTotal` | client/src/components/Analysis.jsx:32 | the sum of the slice values is the sum of all expense amounts |
| `Analysis.GroupEmpty` | client/src/components/Analysis.jsx:59 | the grouping is empty exactly when no record has type "expense" |
| `Analysis.Percent` | client/src/components/Analysis.jsx:40-44 | 0 unless the total is positive; otherwise percent × total = value × 100 |
| `Analysis.WithPercent` | client/src/components/Analysis.jsx:40-44 | one row per slice, in order, carrying the slice's name, value and zero-guarded share of the total |
| `Analysis.Summarize` | client/src/components/Analysis.jsx:31-131 | total income is the sum of income amounts, total expenses the sum of expense amounts, balance their difference; the breakdown is empty exactly when there is no expense record, else a permutation of the grouping with percentages ordered largest value first |
| `Analysis.BreakdownIsStable` | client/src/components/Analysis.jsx:129-131 | slices of equal value keep, in the largest-first breakdown, the order in which the grouping first met their categories |
| `Analysis.BreakdownRows` | client/src/components/Analysis.jsx:40-44 | every breakdown row is an expense category with its summed amount and its zero-guarded share of the expense total |
| `Analysis.PercentsSumToHundred` | client/src/components/Analysis.jsx:40-44 | when expenses total more than zero the unrounded percentages add up to exactly 100 (the displayed `toFixed(1)` strings need not) |
| `Consistency.BalanceGap` | client/src/pages/dashboard.jsx:53 | the dashboard balance equals the analysis balance minus the amounts of the records typed neither "income" nor "expense" |
| `Consistency.BalancesAgreeOnStoredData` | server/models/Transaction.js:5 | on any list the server returns from a valid store, the two balances agree |
| `Consistency.UntypedRecordDiverges` | client/src/components/Analysis.jsx:18 | one untyped record of 5.00: the dashboard shows -5.00, the analysis view shows a 0.00 balance and no expense data |

## Left out

- Express routing, the `protect` middleware and Mongoose persistence are
  abstracted into a caller id and a store value. The id generator is a
  parameter of `ExpenseRoutes.Create`.
- Storage failures answer 500 and are not modelled: connectivity, malformed
  ids that fail to cast, and dates that fail to cast. The 500s the model keeps
  are the ones the schema's validation, its unique indexes and the amount cast
  cause.
- `ExpenseRoutes.AmountInput`: one numeric value stands for both `Number(text)`
  and the Decimal128 cast. Strings on which the two disagree, such as hex
  numerals or surrounding spaces, are not modelled.
- Concurrency is not modelled. The model is sequential, so the race between
  the key lookup and the insert cannot occur in it. The code has no path that
  recovers from that race.
- Floating point is not modelled: `parseFloat` rounding, and `toFixed`
  rendering and rounding. Amounts are exact integers.
- `Analysis.Percent`: states the exact ratio, not the `toFixed(1)` string.
- `Date` parsing is not modelled. Dates are integers. A request date that is
  present is always truthy, so the empty date string "" is not represented:
  the code answers 400 "Date is required." for it on create and keeps the
  stored date for it on update.
- `ExpenseRoutes.CreateBody`: request fields are modelled as strings only
  (amounts as a number or a string). A key of `0` or `false` is falsy, skips
  the lookup and is cast to the string "0" or "false", so a later such key
  collides with it and answers 500. A key that is an operator object such as
  `{"$ne": null}` is truthy, reaches the lookup as a query operator, matches
  any keyed document and returns it with 200, whoever owns it; the model's
  promise that an `Existing` reply carries the request's key does not cover it.
- JSON `null` is not represented. A `null` idempotency key is indexed by the
  sparse index, unlike an absent one. A query parameter given twice arrives
  as an array.
- `Text.LexLess`: stands for `localeCompare` as lexicographic order on
  Unicode code points.
  This also differs from JavaScript's UTF-16 code-unit order: U+1F600 sorts
  after U+FFFF by code point but before it by code unit.
- `Text.ToLower`: lowers ASCII letters only, not every letter `toLowerCase`
  maps.
- `Text.Trim`: removes ASCII white space, the no-break space and the byte-order
  mark, not every Unicode space.
- `ExpenseRoutes.List`: states only that equal dates may come in any order,
  as the store promises. The model happens to keep store order for them.
- The timestamps `createdAt` and `updatedAt` are not modelled.
- The user model and routes, authentication, the expense form, routing,
  `localStorage`, the chart and its colours, and the axios setup are
  presentation or plumbing outside the ledger. The form's `crypto.randomUUID`
  key is a foreign call, so keys are plain inputs.

=== FILE: analysis.dfy ===
/** The analysis view (client/src/components/Analysis.jsx): expenses grouped
    by category, the totals, the zero-safe percentages and the largest-first
    breakdown. */
module Analysis {
  import opened Wrappers
  import opened Fetched
  import Seqs
  import Sorting

  /** One element of `expenseData`: a category name (possibly absent, matched
      exactly) and the sum of its expense amounts. */
  datatype Slice = Slice(name: Option<string>, value: int)

  function ValueOf(g: Slice): int { g.value }

  function Names(gs: seq<Slice>): (ns: seq<Option<string>>)
    ensures |ns| == |gs|
    ensures forall i :: 0 <= i < |gs| ==> ns[i] == gs[i].name
  {
    seq(|gs|, i requires 0 <= i < |gs| => gs[i].name)
  }

  /** `acc.find(item => item.name === name)`: the position of the first slice
      with that name, or `|acc|` when there is none. */
  function IndexOf(acc: seq<Slice>, name: Option<string>): (i: nat)
    ensures i <= |acc|
    ensures forall k :: 0 <= k < i ==> acc[k].name != name
    ensures i < |acc| ==> acc[i].name == name
  {
    if |acc| == 0 then 0
    else if acc[0].name == name then 0
    else 1 + IndexOf(acc[1..], name)
  }

  /** One step of the grouping `reduce`: add to the found slice, else push a new one. */
  function AddTo(acc: seq<Slice>, name: Option<string>, amt: int): seq<Slice> {
    var i := IndexOf(acc, name);
    if i < |acc| then acc[i := Slice(name, acc[i].value + amt)]
    else acc + [Slice(name, amt)]
  }

  /** `transactions.filter(t => t.type === 'expense').reduce(...)`, folded
      from the left. */
  function Group(es: seq<Entry>): seq<Slice>
    decreases |es|
  {
    if |es| == 0 then []
    else
      var g := Group(es[..|es| - 1]);
      var e := es[|es| - 1];
      if IsExpense(e) then AddTo(g, e.category, ParseAmount(e.amount)) else g
  }

  /** The categories of the expense entries, in list order, repeats included. */
  function ExpenseCategories(es: seq<Entry>): (cs: seq<Option<string>>)
    ensures forall c :: c in cs <==> exists e :: e in es && IsExpense(e) && e.category == c
    decreases |es|
  {
    if |es| == 0 then []
    else
      var e := es[|es| - 1];
      assert es == es[..|es| - 1] + [e];
      if IsExpense(e) then ExpenseCategories(es[..|es| - 1]) + [e.category]
      else ExpenseCategories(es[..|es| - 1])
  }

  /** The sum of the expense amounts in category `c`. */
  function CategoryTotal(es: seq<Entry>, c: Option<string>): int
    decreases |es|
  {
    if |es| == 0 then 0
    else
      var e := es[|es| - 1];
      CategoryTotal(es[..|es| - 1], c) + (if IsExpense(e) && e.category == c then ParseAmount(e.amount) else 0)
  }

  lemma {:induction false} CategoryTotalAbsent(es: seq<Entry>, c: Option<string>)
    requires c !in ExpenseCategories(es)
    ensures CategoryTotal(es, c) == 0
    decreases |es|
  {
    if |es| > 0 {
      var e := es[|es| - 1];
      assert e in es;
      assert forall x :: x in es[..|es| - 1] ==> x in es;
      CategoryTotalAbsent(es[..|es| - 1], c);
    }
  }

  /** The grouping has one slice per distinct expense category, in order of
      first appearance. */
  lemma {:induction false} GroupNames(es: seq<Entry>)
    ensures Names(Group(es)) == Seqs.Dedup(ExpenseCategories(es))
    decreases |es|
  {
    if |es| > 0 {
      var init := es[..|es| - 1];
      var e := es[|es| - 1];
      GroupNames(init);
      if IsExpense(e) {
        var g := Group(init);
        var cs := ExpenseCategories(init);
        assert ExpenseCategories(es) == cs + [e.category];
        assert (cs + [e.category])[..|cs + [e.category]| - 1] == cs;
        var i := IndexOf(g, e.category);
        if i < |g| {
          assert e.category in Names(g);
          assert Names(AddTo(g, e.category, ParseAmount(e.amount))) == Names(g);
        } else {
          assert e.category !in Names(g);
          assert Names(AddTo(g, e.category, ParseAmount(e.amount))) == Names(g) + [e.category];
        }
      }
    }
  }

  /** Each slice's value is the sum of that category's expense amounts. */
  lemma {:induction false} GroupValues(es: seq<Entry>)
    ensures forall i :: 0 <= i < |Group(es)| ==> Group(es)[i].value == CategoryTotal(es, Group(es)[i].name)
    decreases |es|
  {
    if |es| > 0 {
      var init := es[..|es| - 1];
      var e := es[|es| - 1];
      var g := Group(init);
      GroupValues(init);
      if IsExpense(e) {
        GroupNames(init);
        var n := e.category;
        var a := ParseAmount(e.amount);
        var i := IndexOf(g, n);
        var gs := Group(es);
        assert Seqs.Distinct(Names(g));
        forall k | 0 <= k < |gs| ensures gs[k].value == CategoryTotal(es, gs[k].name) {
          if k < |g| && k != i && i < |g| {
            assert Names(g)[k] != Names(g)[i];
          } else if k == |g| {
            assert n !in Names(g);
            assert n !in ExpenseCategories(init);
            CategoryTotalAbsent(init, n);
          }
        }
      }
    }
  }

  /** The sum of the slice values is the sum of all expense amounts. */
  lemma {:induction false} GroupTotal(es: seq<Entry>)
    ensures Seqs.SumBy(ValueOf, Group(es)) == Seqs.SumBy(ExpenseAmount, es)
    decreases |es|
  {
    if |es| > 0 {
      var init := es[..|es| - 1];
      var e := es[|es| - 1];
      var g := Group(init);
      GroupTotal(init);
      assert es == init + [e];
      Seqs.SumBySnoc(ExpenseAmount, init, e);
      if IsExpense(e) {
        var i := IndexOf(g, e.category);
        if i < |g| {
          Seqs.SumByUpdate(ValueOf, g, i, Slice(e.category, g[i].value + ParseAmount(e.amount)));
        } else {
          Seqs.SumBySnoc(ValueOf, g, Slice(e.category, ParseAmount(e.amount)));
        }
      }
    }
  }

  /** The grouping is empty exactly when no entry is an expense. */
  lemma GroupEmpty(es: seq<Entry>)
    ensures Group(es) == [] <==> forall e :: e in es ==> !IsExpense(e)
  {
    GroupNames(es);
    var cs := ExpenseCategories(es);
    if cs != [] { assert cs[0] in Seqs.Dedup(cs); }

  }

  /** A category's share of the total in percent, `0` unless the total is
      positive (so there is never a division by zero). */
  function Percent(value: int, total: int): (p: real)
    ensures total > 0 ==> p * (total as real) == (value as real) * 100.0
    ensures total <= 0 ==> p == 0.0
  {
    if total > 0 then (value as real) * 100.0 / (total as real) else 0.0
  }

  /** A breakdown row: the slice with its percentage. */
  datatype Row = Row(name: Option<string>, value: int, percent: real)

  /** `expenseData.map(cat => ({ ...cat, percent }))`. */
  function WithPercent(gs: seq<Slice>, total: int): (rs: seq<Row>)
    ensures |rs| == |gs|
    ensures forall i :: 0 <= i < |gs| ==>
              rs[i] == Row(gs[i].name, gs[i].value, Percent(gs[i].value, total))
  {
    if |gs| == 0 then []
    else [Row(gs[0].name, gs[0].value, Percent(gs[0].value, total))] + WithPercent(gs[1..], total)
  }

  function SumPercent(rs: seq<Row>): real {
    if |rs| == 0 then 0.0 else rs[0].percent + SumPercent(rs[1..])
  }

  lemma {:induction false} PercentsAddUp(gs: seq<Slice>, total: int)
    requires total > 0
    ensures SumPercent(WithPercent(gs, total)) * (total as real)
         == (Seqs.SumBy(ValueOf, gs) as real) * 100.0
  {
    if |gs| > 0 {
      PercentsAddUp(gs[1..], total);
      assert WithPercent(gs, total)[1..] == WithPercent(gs[1..], total);
      var p := Percent(gs[0].value, total);
      var rest := SumPercent(WithPercent(gs[1..], total));
      assert (p + rest) * (total as real) == p * (total as real) + rest * (total as real);
    }
  }

  /** `(a, b) => b.value - a.value`: larger values first. */
  predicate LargerFirst(a: Row, b: Row) { a.value >= b.value }

  datatype Summary = Summary(totalIncome: int, totalExpenses: int, netBalance: int, breakdown: seq<Row>)

  /** What the view shows. With no expense data it shows the income, zero
      expenses and the income as balance, and no breakdown. */
  function Summarize(es: seq<Entry>): (r: Summary)
    ensures r.totalIncome == Seqs.SumBy(IncomeAmount, es)
    ensures r.totalExpenses == Seqs.SumBy(ExpenseAmount, es)
    ensures r.netBalance == r.totalIncome - r.totalExpenses
    ensures r.breakdown == [] <==> forall e :: e in es ==> !IsExpense(e)
    ensures multiset(r.breakdown) == multiset(WithPercent(Group(es), r.totalExpenses))
    ensures forall i, j :: 0 <= i < j < |r.breakdown| ==> r.breakdown[i].value >= r.breakdown[j].value
  {
    var groups := Group(es);
    var totalExpenses := Seqs.SumBy(ValueOf, groups);
    var totalIncome := Seqs.SumBy(IncomeAmount, es);
    GroupTotal(es);
    GroupEmpty(es);
    if |groups| == 0 then Summary(totalIncome, 0, totalIncome, [])
    else
      var rows := WithPercent(groups, totalExpenses);
      assert Sorting.TotalPreorder(LargerFirst);
      var sorted := Sorting.Sort(LargerFirst, rows);
      assert sorted != [] by { assert |multiset(sorted)| == |rows| > 0; }
      Summary(totalIncome, totalExpenses, totalIncome - totalExpenses, sorted)
  }

  /** The largest-first sort is stable: slices of equal value keep the order in
      which the grouping first met their categories. */
  lemma BreakdownIsStable(es: seq<Entry>, y: Row)
    ensures var r := Summarize(es);
            var same := Sorting.SameRank(LargerFirst, y);
            Seqs.Filter(same, r.breakdown) == Seqs.Filter(same, WithPercent(Group(es), r.totalExpenses))
  {
    var groups := Group(es);
    GroupTotal(es);
    GroupEmpty(es);
    assert Sorting.TotalPreorder(LargerFirst);
    Sorting.SortIsStable(LargerFirst, WithPercent(groups, Seqs.SumBy(ValueOf, groups)), y);
  }

  /** Every breakdown row is an expense category with its summed amount and
      its zero-guarded share of the expense total. */
  lemma BreakdownRows(es: seq<Entry>)
    ensures var r := Summarize(es);
            forall row :: row in r.breakdown ==>
              && row.name in ExpenseCategories(es)
              && row.value == CategoryTotal(es, row.name)
              && row.percent == Percent(row.value, r.totalExpenses)
  {
    var r := Summarize(es);
    var gs := Group(es);
    var rows := WithPercent(gs, r.totalExpenses);
    GroupNames(es);
    GroupValues(es);
    forall row | row in r.breakdown
      ensures row.name in ExpenseCategories(es)
      ensures row.value == CategoryTotal(es, row.name)
      ensures row.percent == Percent(row.value, r.totalExpenses)
    {
      assert row in multiset(rows);
      var i :| 0 <= i < |rows| && rows[i] == row;
      assert Names(gs)[i] == row.name;
      assert Names(gs)[i] in Seqs.Dedup(ExpenseCategories(es));
    }
  }

  /** When expenses total more than zero the breakdown's percentages add up to
      exactly 100 (before the one-decimal rounding of the display). */
  lemma PercentsSumToHundred(es: seq<Entry>)
    requires Seqs.SumBy(ExpenseAmount, es) > 0
    ensures SumPercent(WithPercent(Group(es), Seqs.SumBy(ExpenseAmount, es))) == 100.0
  {
    var t := Seqs.SumBy(ExpenseAmount, es);
    var gs := Group(es);
    GroupTotal(es);
    assert Seqs.SumBy(ValueOf, gs) == t;
    PercentsAddUp(gs, t);
    var sp := SumPercent(WithPercent(gs, t));
    var tr := t as real;
    calc {
      sp * tr;
      (Seqs.SumBy(ValueOf, gs) as real) * 100.0;
      tr * 100.0;
    }
    Cancel(sp, t as real);
  }

  lemma Cancel(x: real, t: real)
    requires t > 0.0 && x * t == t * 100.0
    ensures x == 100.0
  {
    assert (x - 100.0) * t == 0.0;
  }
}

=== FILE: consistency.dfy ===
/** How the two client views and the server relate. The dashboard subtracts
    every record that is not income, including one with no type, while the
    analysis view only counts records whose type is exactly "expense"; the two
    balances therefore differ by the untyped amounts, and agree on anything the
    server stores. */
module Consistency {
  import opened Wrappers
  import opened Fetched
  import Schema
  import ExpenseRoutes
  import Seqs
  import Analysis

  /** The dashboard balance is the analysis balance minus the amounts of the
      records typed neither "income" nor "expense". */
  lemma BalanceGap(es: seq<Entry>)
    ensures Seqs.SumBy(IncomeAmount, es) - Seqs.SumBy(NonIncomeAmount, es)
         == Analysis.Summarize(es).netBalance - Seqs.SumBy(UntypedAmount, es)
  {
    Seqs.SumBySplit(NonIncomeAmount, ExpenseAmount, UntypedAmount, es);
  }

  /** For any list the server returns from a store its schema keeps valid,
      the two balances agree. */
  lemma BalancesAgreeOnStoredData(s: Schema.Store, caller: Schema.UserId, q: ExpenseRoutes.ListQuery)
    requires Schema.Valid(s)
    ensures var es := ToEntries(ExpenseRoutes.List(s, caller, q));
            Analysis.Summarize(es).netBalance ==
              Seqs.SumBy(IncomeAmount, es) - Seqs.SumBy(NonIncomeAmount, es)
  {
    var rs := ExpenseRoutes.List(s, caller, q);
    var es := ToEntries(rs);
    BalanceGap(es);
    forall e | e in es ensures UntypedAmount(e) == 0 {
      var i :| 0 <= i < |es| && es[i] == e;
      assert rs[i] in s.records;
    }
    UntypedSumZero(es);
  }

  lemma {:induction false} UntypedSumZero(es: seq<Entry>)
    requires forall e :: e in es ==> UntypedAmount(e) == 0
    ensures Seqs.SumBy(UntypedAmount, es) == 0
  {
    if |es| > 0 {
      assert es[0] in es;
      assert forall e :: e in es[1..] ==> e in es;
      UntypedSumZero(es[1..]);
    }
  }

  /** A single record without a type: the dashboard shows -5.00 as the
      balance, the analysis view shows 0.00 and no expense data. */
  lemma UntypedRecordDiverges()
    ensures var es := [Entry(Some("t1"), None, Decimal128(500), Some("Food"), Some("Lunch"), Some(0))];
            && Seqs.SumBy(IncomeAmount, es) - Seqs.SumBy(NonIncomeAmount, es) == -500
            && Analysis.Summarize(es).netBalance == 0
            && Analysis.Summarize(es).breakdown == []
  {
    var es := [Entry(Some("t1"), None, Decimal128(500), Some("Food"), Some("Lunch"), Some(0))];
    assert es[1..] == [];
  }
}

=== FILE: dashboard.dfy ===
/** The dashboard's derivations over the fetched list
    (client/src/pages/dashboard.jsx): the balance, the display order and the
    search filter. */
module Dashboard {
  import opened Wrappers
  import opened Fetched
  import Seqs
  import Sorting
  import Text

  /** The `reduce` that computes the balance: income adds, every other record
      (whatever its type, or none) subtracts. */
  method NetBalance(entries: seq<Entry>) returns (balance: int)
    ensures balance == Seqs.SumBy(IncomeAmount, entries) - Seqs.SumBy(NonIncomeAmount, entries)
  {
    balance := 0;
    var i := 0;
    while i < |entries|
      invariant 0 <= i <= |entries|
      invariant balance == Seqs.SumBy(IncomeAmount, entries[..i]) - Seqs.SumBy(NonIncomeAmount, entries[..i])
    {
      var e := entries[i];
      var val := ParseAmount(e.amount);
      assert entries[..i + 1] == entries[..i] + [e];
      Seqs.SumBySnoc(IncomeAmount, entries[..i], e);
      Seqs.SumBySnoc(NonIncomeAmount, entries[..i], e);
      balance := if e.kind == Some("income") then balance + val else balance - val;
      i := i + 1;
    }
    assert entries[..|entries|] == entries;
  }

  /** The balance does not depend on the order the list was fetched in. */
  lemma BalanceIgnoresOrder(a: seq<Entry>, b: seq<Entry>)
    requires multiset(a) == multiset(b)
    ensures Seqs.SumBy(IncomeAmount, a) - Seqs.SumBy(NonIncomeAmount, a)
         == Seqs.SumBy(IncomeAmount, b) - Seqs.SumBy(NonIncomeAmount, b)
  {
    Seqs.SumByPermutation(IncomeAmount, a, b);
    Seqs.SumByPermutation(NonIncomeAmount, a, b);
  }

  /** `a.date ? getTime : 0`. */
  function DateOf(e: Entry): int { e.date.GetOr(0) }

  /** `a._id || ''`. */
  function IdOf(e: Entry): string { e.id.GetOr("") }

  /** `a` may be listed before `b`: it is newer, or as new with an id that is
      not smaller (the comparator returns `dateB - dateA`, then
      `idB.localeCompare(idA)`). */
  predicate ShownBefore(a: Entry, b: Entry) {
    DateOf(a) > DateOf(b) || (DateOf(a) == DateOf(b) && !Text.LexLess(IdOf(a), IdOf(b)))
  }

  lemma ShownBeforeIsPreorder()
    ensures Sorting.TotalPreorder(ShownBefore)
  {
    forall a: Entry, b: Entry ensures ShownBefore(a, b) || ShownBefore(b, a) {
      if DateOf(a) == DateOf(b) && Text.LexLess(IdOf(a), IdOf(b)) && Text.LexLess(IdOf(b), IdOf(a)) {
        Text.LexLessTransitive(IdOf(a), IdOf(b), IdOf(a));
        Text.LexLessIrreflexive(IdOf(a));
      }
    }
    forall a: Entry, b: Entry, c: Entry | ShownBefore(a, b) && ShownBefore(b, c)
      ensures ShownBefore(a, c)
    {
      if DateOf(a) == DateOf(b) == DateOf(c) && Text.LexLess(IdOf(a), IdOf(c)) {
        Text.LexLessTotal(IdOf(a), IdOf(b));
        if Text.LexLess(IdOf(b), IdOf(a)) {
          Text.LexLessTransitive(IdOf(b), IdOf(a), IdOf(c));
        }
      }
    }
  }

  /** The copied and sorted list: a permutation of the fetched list, newest
      first, ties broken by the larger id first. */
  function SortForDisplay(entries: seq<Entry>): (r: seq<Entry>)
    ensures multiset(r) == multiset(entries)
    ensures forall i, j :: 0 <= i < j < |r| ==> DateOf(r[i]) >= DateOf(r[j])
    ensures forall i, j :: 0 <= i < j < |r| && DateOf(r[i]) == DateOf(r[j]) ==>
              !Text.LexLess(IdOf(r[i]), IdOf(r[j]))
  {
    ShownBeforeIsPreorder();
    var r := Sorting.Sort(ShownBefore, entries);
    assert forall i, j :: 0 <= i < j < |r| ==> ShownBefore(r[i], r[j]);
    r
  }

  /** `Array.prototype.sort` is stable: entries the comparator ranks the same
      (same date, same id) stay in the order the server sent them. */
  lemma SortForDisplayIsStable(entries: seq<Entry>, y: Entry)
    ensures var same := Sorting.SameRank(ShownBefore, y);
            Seqs.Filter(same, SortForDisplay(entries)) == Seqs.Filter(same, entries)
  {
    ShownBeforeIsPreorder();
    Sorting.SortIsStable(ShownBefore, entries, y);
  }

  /** `(x || '')` on a text field. */
  function TextOf(v: Option<string>): string { v.GetOr("") }

  /** `(exp.type || 'expense')`. */
  function TypeLabel(e: Entry): string {
    if e.kind.Some? && e.kind.value != "" then e.kind.value else "expense"
  }

  /** The search predicate as the code computes it. */
  predicate Matches(e: Entry, query: string) {
    || Text.Contains(Text.ToLower(TextOf(e.description)), query)
    || Text.Contains(Text.ToLower(TextOf(e.category)), query)
    || Text.Contains(Text.ToLower(TypeLabel(e)), query)
  }

  /** `query` occurs in `s`. */
  ghost predicate Mentions(s: string, query: string) {
    exists k :: Text.OccursAt(s, query, k)
  }

  /** One of the three searched fields, lowered, mentions `query`. */
  ghost predicate Found(e: Entry, query: string) {
    || Mentions(Text.ToLower(TextOf(e.description)), query)
    || Mentions(Text.ToLower(TextOf(e.category)), query)
    || Mentions(Text.ToLower(TypeLabel(e)), query)
  }

  /** The entries of `sorted` the search keeps, in order. */
  function Search(sorted: seq<Entry>, query: string): (r: seq<Entry>)
    ensures Seqs.IsSubseq(r, sorted)
    ensures forall e :: e in r <==> e in sorted && Found(e, query)
    ensures forall e :: multiset(r)[e] == if Found(e, query) then multiset(sorted)[e] else 0
  {
    assert forall e :: Matches(e, query) <==> Found(e, query);
    Seqs.Filter((e: Entry) => Matches(e, query), sorted)
  }

  /** The list shown: the sorted list itself for a blank search; otherwise the
      sorted entries whose lowered description, category or type label
      contains the lowered, trimmed search, every such entry and no other,
      in sorted order. */
  function Displayed(entries: seq<Entry>, search: string): (r: seq<Entry>)
    ensures Text.IsBlank(search) ==> r == SortForDisplay(entries)
    ensures !Text.IsBlank(search) ==>
              && Text.Trim(Text.ToLower(search)) != []
              && Seqs.IsSubseq(r, SortForDisplay(entries))
              && (forall e :: e in r <==> e in entries && Found(e, Text.Trim(Text.ToLower(search))))
              && forall e :: multiset(r)[e] ==
                   if Found(e, Text.Trim(Text.ToLower(search))) then multiset(entries)[e] else 0
  {
    var sorted := SortForDisplay(entries);
    Text.TrimEmptyIffBlank(search);
    Text.LowerKeepsBlankness(search);
    if Text.Trim(search) == [] then sorted
    else
      assert forall e :: e in sorted <==> e in entries by {
        assert forall e :: e in sorted <==> e in multiset(entries);
      }
      Search(sorted, Text.Trim(Text.ToLower(search)))
  }
}

=== FILE: expense_routes.dfy ===
/** The transaction routes (server/routes/expenseRoutes.js) as operations on a
    store value. The authenticated caller is an explicit user id; the id the
    store would generate for a new document is an explicit parameter. Request
    fields are `Option`s: `None` is an absent (`undefined`) field. */
module ExpenseRoutes {
  import opened Wrappers
  import opened Schema
  import Seqs
  import Sorting

  /** JavaScript truthiness of a string field: present and non-empty. */
  predicate TruthyText(v: Option<string>) {
    v.Some? && v.value != ""
  }

  /** A request amount as JSON carries it: a number, or a string (the client's
      form sends the text of its input). `parsed` is the numeric value of the
      text, `None` when it is not a number; it stands both for `Number(text)`
      and for the Decimal128 cast the store applies. */
  datatype AmountInput = Number(value: Paise) | Numeral(text: string, parsed: Option<Paise>)

  /** JavaScript truthiness of an amount: a non-zero number, or a non-empty
      string (so the string "0" is truthy). */
  predicate TruthyAmount(v: Option<AmountInput>) {
    && v.Some?
    && match v.value
       case Number(n) => n != 0
       case Numeral(text, _) => text != ""
  }

  /** `Number(amount)`, with `None` for `NaN`; also the value the store's cast
      yields, which fails exactly when this is `None`. */
  function NumericValue(a: AmountInput): Option<Paise> {
    match a
    case Number(n) => Some(n)
    case Numeral(_, p) => p
  }

  /** `Number(amount) <= 0`: false for `NaN`, as every comparison with it is. */
  predicate NotPositive(a: AmountInput) {
    NumericValue(a).Some? && NumericValue(a).value <= 0
  }

  datatype CreateBody = CreateBody(
    amount: Option<AmountInput>,
    category: Option<string>,
    description: Option<string>,
    date: Option<Date>,
    kind: Option<string>,
    key: Option<string>)

  /** The four validation failures, in the order the handler checks them. */
  datatype Invalid = BadAmount | BadKind | NoDate | NoText

  function Message(e: Invalid): string {
    match e
    case BadAmount => "Please provide a valid positive amount."
    case BadKind => "Type must be either 'income' or 'expense'."
    case NoDate => "Date is required."
    case NoText => "Category and description are required."
  }

  /** Each failed check answers with its own message, so the client can tell
      which check refused the request. */
  lemma MessagesDistinct(e1: Invalid, e2: Invalid)
    ensures Message(e1) == Message(e2) <==> e1 == e2
  {
    assert |Message(BadAmount)| == 39;
    assert |Message(BadKind)| == 42;
    assert |Message(NoDate)| == 17;
    assert |Message(NoText)| == 38;
  }

  datatype Reply =
    | Created(record: Transaction)
    | Existing(record: Transaction)
    | Updated(record: Transaction)
    | Removed
    | BadRequest(reason: Invalid)
    | NotFound(message: string)
    | NotAuthorized
    | ServerError

  /** The HTTP status each reply is sent with. */
  function Status(r: Reply): int {
    match r
    case Created(_) => 201
    case Existing(_) => 200
    case Updated(_) => 200
    case Removed => 200
    case BadRequest(_) => 400
    case NotFound(_) => 404
    case NotAuthorized => 401
    case ServerError => 500
  }

  datatype Outcome = Outcome(store: Store, reply: Reply)

  predicate AmountOk(b: CreateBody) { TruthyAmount(b.amount) && !NotPositive(b.amount.value) }
  predicate KindOk(b: CreateBody) { b.kind == Some(Income) || b.kind == Some(Expense) }
  predicate DateOk(b: CreateBody) { b.date.Some? }
  predicate TextOk(b: CreateBody) { TruthyText(b.category) && TruthyText(b.description) }

  predicate Acceptable(b: CreateBody) {
    AmountOk(b) && KindOk(b) && DateOk(b) && TextOk(b)
  }

  /** The create handler's checks, in order; the first that fails decides the reply. */
  function Validate(b: CreateBody): (r: Option<Invalid>)
    ensures r.None? <==> Acceptable(b)
    ensures r == Some(BadAmount) <==> !AmountOk(b)
    ensures r == Some(BadKind) <==> AmountOk(b) && !KindOk(b)
    ensures r == Some(NoDate) <==> AmountOk(b) && KindOk(b) && !DateOk(b)
    ensures r == Some(NoText) <==> AmountOk(b) && KindOk(b) && DateOk(b) && !TextOk(b)
  {
    if !TruthyAmount(b.amount) || NotPositive(b.amount.value) then Some(BadAmount)
    else if !TruthyText(b.kind) || !KindAllowed(b.kind.value) then Some(BadKind)
    else if b.date.None? then Some(NoDate)
    else if !TruthyText(b.category) || !TruthyText(b.description) then Some(NoText)
    else None
  }

  /** The acceptable amount of `b` is one the store's cast accepts. */
  predicate Castable(b: CreateBody) {
    b.amount.Some? && NumericValue(b.amount.value).Some?
  }

  /** POST /: validate, return the document already carrying the idempotency
      key if there is one (whoever owns it), otherwise insert a new document;
      an amount the cast rejects, or a write the store refuses, answers 500. */
  function Create(s: Store, caller: UserId, b: CreateBody, freshId: Id): (o: Outcome)
    ensures o.reply.BadRequest? || o.reply.Existing? || o.reply.Created? || o.reply.ServerError?
    ensures Status(o.reply) in {201, 200, 400, 500}
    ensures Status(o.reply) == 400 <==> !Acceptable(b)
    ensures o.reply.BadRequest? <==> !Acceptable(b)
    ensures o.reply.BadRequest? ==> Validate(b) == Some(o.reply.reason)
    ensures !o.reply.Created? ==> o.store == s
    ensures o.reply.Existing? <==>
              && Acceptable(b) && TruthyText(b.key)
              && exists t :: t in s.records && t.key == b.key
    ensures o.reply.Existing? ==> o.reply.record in s.records && o.reply.record.key == b.key
    ensures o.reply.Created? ==>
              o.store.records == s.records + [o.reply.record]
    ensures o.reply.Created? ==>
              && Castable(b)
              && o.reply.record == Transaction(freshId, caller, b.kind.value,
                                               NumericValue(b.amount.value).value,
                                               b.category.value, b.description.value,
                                               b.date.value, b.key)
    ensures Valid(s) ==> Valid(o.store)
  {
    match Validate(b)
    case Some(e) => Outcome(s, BadRequest(e))
    case None =>
      var prior := if TruthyText(b.key) then FindByKey(s.records, b.key.value) else None;
      if prior.Some? then Outcome(s, Existing(prior.value))
      else
        match NumericValue(b.amount.value)
        case None => Outcome(s, ServerError)
        case Some(amount) =>
          var t := NewDocument(freshId, caller, b.kind, amount, b.category.value,
                               b.description.value, b.date.value, b.key);
          match Insert(s, t)
          case Success(s') => Outcome(s', Created(t))
          case Failure(_) => Outcome(s, ServerError)
  }

  /** On a valid store, an acceptable create by a signed-in caller with an id the
      store has not used fails with 500 in two ways. An amount the cast rejects
      (a string that is not a number passes `Number(amount) <= 0`, since `NaN`
      compares false) fails unless the key finds an earlier document. Otherwise
      it fails only when the request carries the empty key and a document
      already carries it: the empty key is falsy, so the lookup is skipped, but
      it is stored and the unique index rejects it. */
  lemma CreateServerErrors(s: Store, caller: UserId, b: CreateBody, freshId: Id)
    requires Valid(s) && Acceptable(b) && caller != ""
    requires forall t :: t in s.records ==> t.id != freshId
    ensures !Castable(b) ==>
              (Create(s, caller, b, freshId).reply.ServerError? <==>
                 !(TruthyText(b.key) && exists t :: t in s.records && t.key == b.key))
    ensures Castable(b) ==>
              (Create(s, caller, b, freshId).reply.ServerError? <==>
                 b.key == Some("") && exists t :: t in s.records && t.key == Some(""))
  {
  }

  /** Retrying a create with the key of a document the first call created
      returns that document, with status 200, and writes nothing, whoever the
      second caller is and whatever the other fields of the retry say. */
  lemma RetryReturnsOriginal(s: Store, c1: UserId, b1: CreateBody, id1: Id,
                             c2: UserId, b2: CreateBody, id2: Id)
    requires Valid(s)
    requires Create(s, c1, b1, id1).reply.Created?
    requires TruthyText(b1.key) && b2.key == b1.key && Acceptable(b2)
    ensures var o1 := Create(s, c1, b1, id1);
            Create(o1.store, c2, b2, id2) == Outcome(o1.store, Existing(o1.reply.record))
  {
    var o1 := Create(s, c1, b1, id1);
    FindByKeyUnique(o1.store.records, o1.reply.record);
  }

  datatype CreateCall = CreateCall(caller: UserId, body: CreateBody, freshId: Id)

  /** A sequence of create requests handled one after another. */
  function CreateAll(s: Store, calls: seq<CreateCall>): (Store, seq<Reply>)
    decreases |calls|
  {
    if |calls| == 0 then (s, [])
    else
      var o := Create(s, calls[0].caller, calls[0].body, calls[0].freshId);
      var (s', replies) := CreateAll(o.store, calls[1..]);
      (s', [o.reply] + replies)
  }

  /** Once a document carries key `k`, any number of acceptable creates with key
      `k` leave the store as it is and each answers with that document. */
  lemma {:induction false} RetriesAreNoOps(s: Store, r: Transaction, calls: seq<CreateCall>)
    requires Valid(s) && r in s.records && TruthyText(r.key)
    requires forall i :: 0 <= i < |calls| ==> calls[i].body.key == r.key && Acceptable(calls[i].body)
    ensures CreateAll(s, calls).0 == s
    ensures CreateAll(s, calls).1 == seq(|calls|, _ => Existing(r))
  {
    if |calls| > 0 {
      FindByKeyUnique(s.records, r);
      RetriesAreNoOps(s, r, calls[1..]);
    }
  }

  /** Without a key nothing is deduplicated: two acceptable creates add two
      documents carrying the same fields. */
  lemma KeylessCreatesDuplicate(s: Store, caller: UserId, b: CreateBody, id1: Id, id2: Id)
    requires Valid(s) && Acceptable(b) && b.key.None? && caller != ""
    requires id1 != id2 && forall t :: t in s.records ==> t.id != id1 && t.id != id2
    ensures var o1 := Create(s, caller, b, id1);
            var o2 := Create(o1.store, caller, b, id2);
            Castable(b) ==>
              && o1.reply.Created? && o2.reply.Created?
              && |o2.store.records| == |s.records| + 2
              && o1.reply.record.(id := id2) == o2.reply.record
    ensures var o1 := Create(s, caller, b, id1);
            var o2 := Create(o1.store, caller, b, id2);
            !Castable(b) ==> o1.reply.ServerError? && o2.reply.ServerError? && o2.store == s
  {
  }

  datatype ListQuery = ListQuery(category: Option<string>, kind: Option<string>, sort: Option<string>)

  /** The document query the list handler builds: the caller's documents, of the
      given category when one is given, of the given type only when it is one of
      the two enum values (any other value is ignored). */
  predicate Selects(q: ListQuery, caller: UserId, t: Transaction) {
    && t.owner == caller
    && (TruthyText(q.category) ==> t.category == q.category.value)
    && (q.kind == Some(Income) || q.kind == Some(Expense) ==> Some(t.kind) == q.kind)
  }

  predicate NewerOrSame(a: Transaction, b: Transaction) { a.date >= b.date }
  predicate OlderOrSame(a: Transaction, b: Transaction) { a.date <= b.date }

  lemma DateOrdersArePreorders()
    ensures Sorting.TotalPreorder(NewerOrSame)
    ensures Sorting.TotalPreorder(OlderOrSame)
  {
  }

  /** The documents the list query selects, in store order. */
  function Selected(s: Store, caller: UserId, q: ListQuery): (r: seq<Transaction>)
    ensures forall t :: t in r <==> t in s.records && Selects(q, caller, t)
    ensures forall t :: multiset(r)[t] == if Selects(q, caller, t) then multiset(s.records)[t] else 0
    ensures Seqs.IsSubseq(r, s.records)
  {
    Seqs.Filter((t: Transaction) => Selects(q, caller, t), s.records)
  }

  /** The store's sort on `date`, newest first when `newest` holds. */
  function SortByDate(found: seq<Transaction>, newest: bool): (r: seq<Transaction>)
    ensures multiset(r) == multiset(found)
    ensures newest ==> forall i, j :: 0 <= i < j < |r| ==> r[i].date >= r[j].date
    ensures !newest ==> forall i, j :: 0 <= i < j < |r| ==> r[i].date <= r[j].date
  {
    DateOrdersArePreorders();
    if newest then Sorting.Sort(NewerOrSame, found) else Sorting.Sort(OlderOrSame, found)
  }

  /** GET /: the selected documents, sorted by date for `date_desc` and
      `date_asc`, otherwise in store order. */
  function List(s: Store, caller: UserId, q: ListQuery): (r: seq<Transaction>)
    ensures forall t :: t in r <==> t in s.records && Selects(q, caller, t)
    ensures forall t :: multiset(r)[t] == if Selects(q, caller, t) then multiset(s.records)[t] else 0
    ensures q.sort == Some("date_desc") ==> forall i, j :: 0 <= i < j < |r| ==> r[i].date >= r[j].date
    ensures q.sort == Some("date_asc") ==> forall i, j :: 0 <= i < j < |r| ==> r[i].date <= r[j].date
    ensures q.sort != Some("date_desc") && q.sort != Some("date_asc") ==> Seqs.IsSubseq(r, s.records)
  {
    var found := Selected(s, caller, q);
    if q.sort == Some("date_desc") || q.sort == Some("date_asc") then
      var r := SortByDate(found, q.sort == Some("date_desc"));
      assert forall t :: t in r <==> t in multiset(found);
      r
    else found
  }

  const NotFoundMessage: string := "Not found"
  const NotFoundOrUnauthorizedMessage: string := "Transaction not found or unauthorized"

  /** DELETE /:id: 404 when no document has the id, 401 when the caller does not
      own it, otherwise the document is removed. */
  function Delete(s: Store, caller: UserId, id: Id): (o: Outcome)
    ensures o.reply.NotFound? || o.reply.NotAuthorized? || o.reply.Removed?
    ensures Status(o.reply) in {200, 401, 404}
    ensures Status(o.reply) == 404 <==> forall t :: t in s.records ==> t.id != id
    ensures o.reply.NotFound? <==> forall t :: t in s.records ==> t.id != id
    ensures !o.reply.Removed? ==> o.store == s
    ensures o.reply.Removed? ==>
              && (forall t :: t in o.store.records <==> t in s.records && t.id != id)
              && Seqs.IsSubseq(o.store.records, s.records)
    ensures Valid(s) ==> Valid(o.store)
  {
    match FindById(s.records, id)
    case None => Outcome(s, NotFound(NotFoundMessage))
    case Some(t) =>
      if t.owner != caller then Outcome(s, NotAuthorized)
      else Outcome(RemoveById(s, id), Removed)
  }

  /** On a valid store the two refusals of DELETE are told apart by ownership:
      401 exactly when the document exists and belongs to someone else, and a
      successful delete leaves no document with that id behind. */
  lemma DeleteGate(s: Store, caller: UserId, id: Id)
    requires Valid(s)
    ensures Delete(s, caller, id).reply.NotAuthorized? <==>
              exists t :: t in s.records && t.id == id && t.owner != caller
    ensures Delete(s, caller, id).reply.Removed? <==>
              exists t :: t in s.records && t.id == id && t.owner == caller
    ensures Delete(s, caller, id).reply.Removed? ==>
              FindById(Delete(s, caller, id).store.records, id).None?
  {
    var f := FindById(s.records, id);
    if f.Some? {
      forall t | t in s.records && t.id == id ensures t == f.value {
        FindByIdUnique(s.records, t);
      }
    }
  }

  datatype UpdateBody = UpdateBody(
    amount: Option<AmountInput>,
    category: Option<string>,
    description: Option<string>,
    date: Option<Date>,
    kind: Option<string>)

  /** The supplied amount, if truthy, is one the store's cast rejects: the
      assignment records a cast error, keeps the stored value, and `save` fails. */
  predicate AmountRejected(b: UpdateBody) {
    TruthyAmount(b.amount) && NumericValue(b.amount.value).None?
  }

  /** `field = supplied || field` for each updatable field: a truthy supplied
      value replaces the stored one, anything else keeps it. A supplied amount
      is stored as its cast value; one the cast rejects leaves the stored amount. */
  function Merge(t: Transaction, b: UpdateBody): (m: Transaction)
    ensures m.id == t.id && m.owner == t.owner && m.key == t.key
    ensures TruthyAmount(b.amount) && !AmountRejected(b) ==>
              m.amount == NumericValue(b.amount.value).value
    ensures !TruthyAmount(b.amount) || AmountRejected(b) ==> m.amount == t.amount
    ensures m.category == (if TruthyText(b.category) then b.category.value else t.category)
    ensures m.description == (if TruthyText(b.description) then b.description.value else t.description)
    ensures m.date == (if b.date.Some? then b.date.value else t.date)
    ensures m.kind == (if TruthyText(b.kind) then b.kind.value else t.kind)
  {
    t.(amount := if TruthyAmount(b.amount) && !AmountRejected(b)
                 then NumericValue(b.amount.value).value else t.amount,
       category := if TruthyText(b.category) then b.category.value else t.category,
       description := if TruthyText(b.description) then b.description.value else t.description,
       date := if b.date.Some? then b.date.value else t.date,
       kind := if TruthyText(b.kind) then b.kind.value else t.kind)
  }

  /** A field changes only when the request supplies a truthy, different value
      for it; an empty request changes nothing; merging twice is merging once. */
  lemma MergeChangesOnlySupplied(t: Transaction, b: UpdateBody)
    ensures Merge(t, b).amount != t.amount ==> TruthyAmount(b.amount)
    ensures Merge(t, b).category != t.category ==> TruthyText(b.category)
    ensures Merge(t, b).description != t.description ==> TruthyText(b.description)
    ensures Merge(t, b).date != t.date ==> b.date.Some?
    ensures Merge(t, b).kind != t.kind ==> TruthyText(b.kind)
    ensures Merge(t, UpdateBody(None, None, None, None, None)) == t
    ensures Merge(Merge(t, b), b) == Merge(t, b)
  {
  }

  /** A stored document that conforms keeps its required fields non-empty under
      any merge: a field cannot be cleared through an update. */
  lemma MergeCannotClear(t: Transaction, b: UpdateBody)
    requires Conforms(t)
    ensures Merge(t, b).category != "" && Merge(t, b).description != "" && Merge(t, b).owner != ""
    ensures Conforms(Merge(t, b)) <==> !TruthyText(b.kind) || KindAllowed(b.kind.value)
  {
  }

  /** POST /:id: the owner's document merged with the request and saved; a
      missing document and someone else's document both answer 404. */
  function Update(s: Store, caller: UserId, id: Id, b: UpdateBody): (o: Outcome)
    ensures o.reply.NotFound? || o.reply.Updated? || o.reply.ServerError?
    ensures Status(o.reply) in {200, 404, 500}
    ensures !o.reply.Updated? ==> o.store == s
    ensures o.reply.Updated? ==>
              && (exists t :: t in s.records && t.id == id && t.owner == caller
                                && o.reply.record == Merge(t, b))
              && o.store.records == ReplaceById(s.records, o.reply.record)
    ensures Valid(s) ==> Valid(o.store)
  {
    match FindById(s.records, id)
    case Some(t) =>
      if t.owner == caller then
        var m := Merge(t, b);
        if AmountRejected(b) then Outcome(s, ServerError)
        else match Save(s, m)
        case Success(s') => Outcome(s', Updated(m))
        case Failure(_) => Outcome(s, ServerError)
      else Outcome(s, NotFound(NotFoundOrUnauthorizedMessage))
    case None => Outcome(s, NotFound(NotFoundOrUnauthorizedMessage))
  }

  /** On a valid store: 404 exactly when the caller owns no document with the id
      (missing and not-owned are collapsed), and once past that gate the update
      fails with 500 exactly when it supplies a truthy `type` outside the enum
      or an amount the cast rejects. */
  lemma UpdateGate(s: Store, caller: UserId, id: Id, b: UpdateBody)
    requires Valid(s)
    ensures Update(s, caller, id, b).reply.NotFound? <==>
              !exists t :: t in s.records && t.id == id && t.owner == caller
    ensures Update(s, caller, id, b).reply.ServerError? <==>
              && (exists t :: t in s.records && t.id == id && t.owner == caller)
              && ((TruthyText(b.kind) && !KindAllowed(b.kind.value)) || AmountRejected(b))
  {
    var f := FindById(s.records, id);
    if f.Some? {
      forall t | t in s.records && t.id == id ensures t == f.value {
        FindByIdUnique(s.records, t);
      }
      var m := Merge(f.value, b);
      forall u | u in s.records && u.id != m.id && m.key.Some? ensures u.key != m.key {
        var i :| 0 <= i < |s.records| && s.records[i] == u;
        var j :| 0 <= j < |s.records| && s.records[j] == f.value;
        assert i != j;
      }
    }
  }

  /** The update path checks no amount: an owner can store a negative amount,
      which the create path would have refused. */
  lemma UpdateAcceptsNegativeAmount()
    ensures var t := Transaction("t1", "u1", Expense, 500, "Food", "Lunch", 0, None);
            var o := Update(Store([t]), "u1", "t1", UpdateBody(Some(Number(-500)), None, None, None, None));
            o.reply.Updated? && o.reply.record.amount == -500 && o.store.records == [o.reply.record]
  {
  }

  /** The client's form sends the amount as text, and the string "0" is truthy:
      an owner's update with amount "0" stores a zero amount, while the number 0
      is falsy and keeps the stored amount. */
  lemma UpdateZeroAmountText()
    ensures var t := Transaction("t1", "u1", Expense, 500, "Food", "Lunch", 0, None);
            var o := Update(Store([t]), "u1", "t1", UpdateBody(Some(Numeral("0", Some(0))), None, None, None, None));
            o.reply.Updated? && o.reply.record.amount == 0
    ensures var t := Transaction("t1", "u1", Expense, 500, "Food", "Lunch", 0, None);
            var o := Update(Store([t]), "u1", "t1", UpdateBody(Some(Number(0)), None, None, None, None));
            o.reply.Updated? && o.reply.record.amount == 500
  {
  }
}

=== FILE: fetched.dfy ===
/** A transaction as the client receives it in the JSON list, and the amount
    parsing shared by the dashboard and the analysis view. Every field is
    optional because the client code guards against missing fields. */
module Fetched {
  import opened Wrappers
  import Schema
  import Seqs

  /** An amount in JSON: the document store's Decimal128 wrapper
      `{ "$numberDecimal": ... }`, a plain number, or nothing at all. */
  datatype AmountJson = Decimal128(numberDecimal: Schema.Paise) | Plain(value: Schema.Paise) | Absent

  datatype Entry = Entry(
    id: Option<string>,
    kind: Option<string>,
    amount: AmountJson,
    category: Option<string>,
    description: Option<string>,
    date: Option<Schema.Date>)

  /** `parseFloat(amt?.$numberDecimal || amt || 0)`. */
  function ParseAmount(a: AmountJson): Schema.Paise {
    match a
    case Decimal128(d) => d
    case Plain(v) => v
    case Absent => 0
  }

  /** The JSON form of a stored document: the amount is sent as the Decimal128
      wrapper, every other field as itself. */
  function ToEntry(t: Schema.Transaction): Entry {
    Entry(Some(t.id), Some(t.kind), Decimal128(t.amount), Some(t.category),
          Some(t.description), Some(t.date))
  }

  function ToEntries(rs: seq<Schema.Transaction>): (es: seq<Entry>)
    ensures |es| == |rs|
    ensures forall i :: 0 <= i < |rs| ==> es[i] == ToEntry(rs[i])
  {
    if |rs| == 0 then [] else [ToEntry(rs[0])] + ToEntries(rs[1..])
  }

  /** Both JSON forms of an amount parse to the same exact value, a missing
      amount counts as zero, and a stored amount survives its trip through
      JSON unchanged. */
  lemma AmountRoundTrip(t: Schema.Transaction, x: Schema.Paise)
    ensures ParseAmount(Decimal128(x)) == ParseAmount(Plain(x)) == x
    ensures ParseAmount(Absent) == 0
    ensures ParseAmount(ToEntry(t).amount) == t.amount
  {
  }

  predicate IsIncome(e: Entry) { e.kind == Some(Schema.Income) }
  predicate IsExpense(e: Entry) { e.kind == Some(Schema.Expense) }

  function IncomeAmount(e: Entry): int { if IsIncome(e) then ParseAmount(e.amount) else 0 }
  function ExpenseAmount(e: Entry): int { if IsExpense(e) then ParseAmount(e.amount) else 0 }
  /** Every record that is not income, including one with no type at all. */
  function NonIncomeAmount(e: Entry): int { if IsIncome(e) then 0 else ParseAmount(e.amount) }
  /** Records whose type is neither of the two enum values (typically absent). */
  function UntypedAmount(e: Entry): int {
    if IsIncome(e) || IsExpense(e) then 0 else ParseAmount(e.amount)
  }
}

=== FILE: seqs.dfy ===
/** Generic facts about sequences shared by the server and client models:
    filtering that keeps order, integer sums and their invariance under
    reordering, and removal of repeated elements. */
module Seqs {

  /** `r` can be obtained from `s` by deleting elements (order is kept). */
  predicate IsSubseq<T(==)>(r: seq<T>, s: seq<T>)
    decreases |s|
  {
    || |r| == 0
    || (|s| > 0 && ((r[0] == s[0] && IsSubseq(r[1..], s[1..])) || IsSubseq(r, s[1..])))
  }

  /** JavaScript's `Array.prototype.filter`: the elements of `s` satisfying `p`,
      every occurrence of them, in their original order. */
  function Filter<T(!new)>(p: T -> bool, s: seq<T>): (r: seq<T>)
    ensures forall x :: x in r <==> x in s && p(x)
    ensures forall x :: multiset(r)[x] == if p(x) then multiset(s)[x] else 0
    ensures IsSubseq(r, s)
  {
    if |s| == 0 then []
    else
      assert s == [s[0]] + s[1..];
      if p(s[0]) then [s[0]] + Filter(p, s[1..])
      else Filter(p, s[1..])
  }

  /** The sum of `f` over the elements of `s`. */
  function SumBy<T>(f: T -> int, s: seq<T>): int
  {
    if |s| == 0 then 0 else f(s[0]) + SumBy(f, s[1..])
  }

  lemma {:induction false} SumByAppend<T>(f: T -> int, a: seq<T>, b: seq<T>)
    ensures SumBy(f, a + b) == SumBy(f, a) + SumBy(f, b)
  {
    if |a| == 0 {
      assert a + b == b;
    } else {
      assert (a + b)[1..] == a[1..] + b;
      SumByAppend(f, a[1..], b);
    }
  }

  /** Adding one element at the end adds its value: the step of a left fold. */
  lemma SumBySnoc<T>(f: T -> int, s: seq<T>, x: T)
    ensures SumBy(f, s + [x]) == SumBy(f, s) + f(x)
  {
    SumByAppend(f, s, [x]);
  }

  /** Taking out the element at position `j` takes its term out of the sum and
      one copy of it out of the multiset. */
  lemma RemoveAt<T>(f: T -> int, b: seq<T>, j: int)
    requires 0 <= j < |b|
    ensures multiset(b[..j] + b[j + 1..]) == multiset(b) - multiset{b[j]}
    ensures SumBy(f, b) == f(b[j]) + SumBy(f, b[..j] + b[j + 1..])
  {
    RemoveAtMultiset(b, j);
    RemoveAtSum(f, b, j);
  }

  lemma RemoveAtMultiset<T>(b: seq<T>, j: int)
    requires 0 <= j < |b|
    ensures multiset(b[..j] + b[j + 1..]) == multiset(b) - multiset{b[j]}
  {
    assert b == b[..j] + [b[j]] + b[j + 1..];
  }

  lemma RemoveAtSum<T>(f: T -> int, b: seq<T>, j: int)
    requires 0 <= j < |b|
    ensures SumBy(f, b) == f(b[j]) + SumBy(f, b[..j] + b[j + 1..])
  {
    assert b == b[..j] + [b[j]] + b[j + 1..];
    SumByMiddle(f, b[..j], b[j], b[j + 1..]);
  }

  lemma SumByMiddle<T>(f: T -> int, pre: seq<T>, x: T, post: seq<T>)
    ensures SumBy(f, pre + [x] + post) == f(x) + SumBy(f, pre + post)
  {
    assert pre + [x] + post == pre + ([x] + post);
    SumByAppend(f, pre, [x] + post);
    assert ([x] + post)[1..] == post;
    SumByAppend(f, pre, post);
  }

  /** Replacing one term changes the sum by the difference. */
  lemma SumByUpdate<T>(f: T -> int, s: seq<T>, i: int, x: T)
    requires 0 <= i < |s|
    ensures SumBy(f, s[i := x]) == SumBy(f, s) - f(s[i]) + f(x)
  {
    assert s == s[..i] + ([s[i]] + s[i + 1..]);
    assert s[i := x] == s[..i] + ([x] + s[i + 1..]);
    SumByAppend(f, s[..i], [s[i]] + s[i + 1..]);
    SumByAppend(f, s[..i], [x] + s[i + 1..]);
    assert ([s[i]] + s[i + 1..])[1..] == s[i + 1..];
    assert ([x] + s[i + 1..])[1..] == s[i + 1..];
  }

  /** A sum of pointwise sums is the sum of the two sums. */
  lemma {:induction false} SumBySplit<T>(f: T -> int, g: T -> int, h: T -> int, s: seq<T>)
    requires forall x :: x in s ==> f(x) == g(x) + h(x)
    ensures SumBy(f, s) == SumBy(g, s) + SumBy(h, s)
  {
    if |s| > 0 {
      assert s[0] in s;
      assert forall x :: x in s[1..] ==> x in s;
      SumBySplit(f, g, h, s[1..]);
    }
  }

  /** A sum does not depend on the order of its terms. */
  lemma {:induction false} SumByPermutation<T>(f: T -> int, a: seq<T>, b: seq<T>)
    requires multiset(a) == multiset(b)
    ensures SumBy(f, a) == SumBy(f, b)
  {
    if |a| == 0 {
      assert |b| == |multiset(b)| == 0;
    } else {
      var x := a[0];
      assert x in multiset(b);
      var j :| 0 <= j < |b| && b[j] == x;
      RemoveAt(f, b, j);
      assert a == [x] + a[1..];
      assert multiset(a[1..]) == multiset(a) - multiset{x};
      SumByPermutation(f, a[1..], b[..j] + b[j + 1..]);
    }
  }

  /** No element occurs twice. */
  predicate Distinct<T(==)>(s: seq<T>) {
    forall i, j :: 0 <= i < j < |s| ==> s[i] != s[j]
  }

  /** The position of the first occurrence of `x` in `s`. */
  function FirstAt<T(==)>(s: seq<T>, x: T): (k: nat)
    requires x in s
    ensures k < |s| && s[k] == x
    ensures forall j :: 0 <= j < k ==> s[j] != x
  {
    if s[0] == x then 0 else 1 + FirstAt(s[1..], x)
  }

  /** Appending an element does not move the first occurrence of a value that
      was already there. */
  lemma {:induction false} FirstAtSnoc<T>(s: seq<T>, x: T, y: T)
    requires y in s
    ensures FirstAt(s + [x], y) == FirstAt(s, y)
  {
    var k := FirstAt(s, y);
    var k' := FirstAt(s + [x], y);
    assert (s + [x])[k] == y;
    assert k' <= k;
    assert s[k'] == y;
  }

  /** `s` with every repeated element dropped, keeping first occurrences in order
      (the order in which a fold that appends unseen values discovers them). */
  function Dedup<T(==,!new)>(s: seq<T>): (r: seq<T>)
    ensures Distinct(r)
    ensures forall x :: x in r <==> x in s
    ensures forall i, j :: 0 <= i < j < |r| ==> FirstAt(s, r[i]) < FirstAt(s, r[j])
  {
    if |s| == 0 then []
    else
      var p, x := s[..|s| - 1], s[|s| - 1];
      var d := Dedup(p);
      assert s == p + [x];
      forall y | y in p ensures FirstAt(s, y) == FirstAt(p, y) {
        FirstAtSnoc(p, x, y);
      }
      if x in d then d
      else
        var r := d + [x];
        assert FirstAt(s, x) == |p|;
        assert forall i :: 0 <= i < |d| ==> d[i] in p;
        r
  }
}

=== FILE: sorting.dfy ===
/** A stable sort by a comparison relation, standing for JavaScript's
    `Array.prototype.sort` with a consistent comparator (stable since ES2019)
    and for the document store's `sort` on a field. */
module Sorting {
  import Seqs

  /** `leq(a, b)`: `a` may be placed before `b`. Every pair is comparable and the
      relation is transitive, which is what a consistent comparator provides. */
  ghost predicate TotalPreorder<T(!new)>(leq: (T, T) -> bool) {
    && (forall a, b :: leq(a, b) || leq(b, a))
    && (forall a, b, c :: leq(a, b) && leq(b, c) ==> leq(a, c))
  }

  predicate SortedBy<T>(leq: (T, T) -> bool, s: seq<T>) {
    forall i, j :: 0 <= i < j < |s| ==> leq(s[i], s[j])
  }

  /** Places `x` in front of the first element it may precede. */
  function Insert<T(!new)>(leq: (T, T) -> bool, x: T, s: seq<T>): (r: seq<T>)
    requires TotalPreorder(leq)
    requires SortedBy(leq, s)
    ensures multiset(r) == multiset{x} + multiset(s)
    ensures SortedBy(leq, r)
  {
    if |s| == 0 then [x]
    else if leq(x, s[0]) then
      assert s == [s[0]] + s[1..];
      [x] + s
    else
      var rest := Insert(leq, x, s[1..]);
      assert s == [s[0]] + s[1..];
      assert forall k :: 0 <= k < |rest| ==> leq(s[0], rest[k]) by {
        forall k | 0 <= k < |rest| ensures leq(s[0], rest[k]) {
          assert rest[k] in multiset(rest);
          if rest[k] != x {
            assert rest[k] in multiset(s[1..]);
            var i :| 0 <= i < |s[1..]| && s[1..][i] == rest[k];
            assert s[i + 1] == rest[k];
          }
        }
      }
      [s[0]] + rest
  }

  /** A sorted permutation of `s`; `SortIsStable` shows that elements neither
      of which precedes the other keep their relative order. */
  function Sort<T(!new)>(leq: (T, T) -> bool, s: seq<T>): (r: seq<T>)
    requires TotalPreorder(leq)
    ensures multiset(r) == multiset(s)
    ensures SortedBy(leq, r)
  {
    if |s| == 0 then []
    else
      assert s == [s[0]] + s[1..];
      Insert(leq, s[0], Sort(leq, s[1..]))
  }

  /** The test for "ranks the same as `y`": each may be placed before the other. */
  function SameRank<T>(leq: (T, T) -> bool, y: T): T -> bool {
    x => leq(x, y) && leq(y, x)
  }

  /** Inserting `x` into a sorted sequence puts it in front of every element of
      its own rank, and leaves the order of the other elements of that rank. */
  lemma {:induction false} InsertKeepsRankOrder<T(!new)>(leq: (T, T) -> bool, x: T, s: seq<T>, y: T)
    requires TotalPreorder(leq)
    requires SortedBy(leq, s)
    ensures Seqs.Filter(SameRank(leq, y), Insert(leq, x, s)) ==
              if SameRank(leq, y)(x) then [x] + Seqs.Filter(SameRank(leq, y), s)
              else Seqs.Filter(SameRank(leq, y), s)
  {
    var p := SameRank(leq, y);
    if |s| > 0 && !leq(x, s[0]) {
      var rest := Insert(leq, x, s[1..]);
      assert SortedBy(leq, s[1..]);
      InsertKeepsRankOrder(leq, x, s[1..], y);
      assert ([s[0]] + rest)[1..] == rest;
      if p(x) {
        assert !p(s[0]);
      }
    }
  }

  /** `Sort` is stable: the elements of any one rank appear in the result in
      the order they have in the input. */
  lemma {:induction false} SortIsStable<T(!new)>(leq: (T, T) -> bool, s: seq<T>, y: T)
    requires TotalPreorder(leq)
    ensures Seqs.Filter(SameRank(leq, y), Sort(leq, s)) == Seqs.Filter(SameRank(leq, y), s)
  {
    if |s| > 0 {
      SortIsStable(leq, s[1..], y);
      InsertKeepsRankOrder(leq, s[0], Sort(leq, s[1..]), y);
    }
  }
}

=== FILE: text.dfy ===
/** String operations the client search relies on: `trim`, `toLowerCase`,
    `includes`, and the code-point order that stands for `localeCompare`. */
module Text {

  /** The white-space characters `String.prototype.trim` removes, restricted to
      ASCII white space, the no-break space and the byte-order mark. */
  predicate IsSpace(c: char) {
    c == ' ' || c == '\t' || c == '\n' || c == '\r' || c == '\U{000B}' || c == '\U{000C}'
    || c == '\U{00A0}' || c == '\U{FEFF}'
  }

  predicate IsBlank(s: string) {
    forall k :: 0 <= k < |s| ==> IsSpace(s[k])
  }

  /** `s` without its leading white space. */
  function TrimStart(s: string): (r: string)
    ensures |r| <= |s| && r == s[|s| - |r|..]
    ensures |r| == 0 || !IsSpace(r[0])
    ensures IsBlank(s[..|s| - |r|])
  {
    if |s| > 0 && IsSpace(s[0]) then
      var r := TrimStart(s[1..]);
      assert s[1..][..|s| - 1 - |r|] == s[1..|s| - |r|];
      r
    else s
  }

  /** `s` without its trailing white space. */
  function TrimEnd(s: string): (r: string)
    ensures |r| <= |s| && r == s[..|r|]
    ensures |r| == 0 || !IsSpace(r[|r| - 1])
    ensures IsBlank(s[|r|..])
  {
    if |s| > 0 && IsSpace(s[|s| - 1]) then
      var r := TrimEnd(s[..|s| - 1]);
      assert s[..|s| - 1][|r|..] + [s[|s| - 1]] == s[|r|..];
      r
    else s
  }

  /** `r` is a slice of `s` with only white space around it. */
  ghost predicate SliceAmidBlanks(s: string, r: string) {
    exists i ::
      && 0 <= i <= |s| - |r| && r == s[i..i + |r|]
      && IsBlank(s[..i]) && IsBlank(s[i + |r|..])
  }

  /** `String.prototype.trim`: the longest slice of `s` that neither starts nor
      ends with white space, surrounded in `s` by white space only. */
  function Trim(s: string): (r: string)
    ensures SliceAmidBlanks(s, r)
    ensures |r| == 0 || (!IsSpace(r[0]) && !IsSpace(r[|r| - 1]))
  {
    TrimPieces(s);
    TrimEnd(TrimStart(s))
  }

  lemma TrimPieces(s: string)
    ensures SliceAmidBlanks(s, TrimEnd(TrimStart(s)))
  {
    var t := TrimStart(s);
    var r := TrimEnd(t);
    var i := |s| - |t|;
    assert t == s[i..];
    assert r == s[i..i + |r|] by { assert r == t[..|r|]; }
    assert s[i + |r|..] == t[|r|..];
  }

  lemma {:induction false} TrimStartEmptyIffBlank(s: string)
    ensures TrimStart(s) == [] <==> IsBlank(s)
  {
    if |s| > 0 && IsSpace(s[0]) {
      TrimStartEmptyIffBlank(s[1..]);
      BlankAfterSpace(s);
    } else if |s| > 0 {
      assert !IsSpace(s[0]);
    }
  }

  lemma {:induction false} TrimEndEmptyIffBlank(s: string)
    ensures TrimEnd(s) == [] <==> IsBlank(s)
  {
    if |s| > 0 && IsSpace(s[|s| - 1]) {
      TrimEndEmptyIffBlank(s[..|s| - 1]);
      BlankBeforeSpace(s);
    } else if |s| > 0 {
      assert !IsSpace(s[|s| - 1]);
    }
  }

  lemma BlankAfterSpace(s: string)
    requires |s| > 0 && IsSpace(s[0])
    ensures IsBlank(s) <==> IsBlank(s[1..])
  {
    if IsBlank(s[1..]) {
      forall k | 1 <= k < |s| ensures IsSpace(s[k]) { assert s[1..][k - 1] == s[k]; }
    }
  }

  lemma BlankBeforeSpace(s: string)
    requires |s| > 0 && IsSpace(s[|s| - 1])
    ensures IsBlank(s) <==> IsBlank(s[..|s| - 1])
  {
    if IsBlank(s[..|s| - 1]) {
      forall k | 0 <= k < |s| - 1 ensures IsSpace(s[k]) { assert s[..|s| - 1][k] == s[k]; }
    }
  }

  /** A string trims to nothing exactly when it is white space only. */
  lemma TrimEmptyIffBlank(s: string)
    ensures Trim(s) == [] <==> IsBlank(s)
  {
    var t := TrimStart(s);
    TrimEndEmptyIffBlank(t);
    TrimStartEmptyIffBlank(s);
    if t != [] {
      assert !IsSpace(t[0]);
    }
  }

  /** ASCII upper-case letters map to lower case; every other character is kept. */
  function LowerChar(c: char): char {
    if 'A' <= c <= 'Z' then (c as int + 32) as char else c
  }

  /** `String.prototype.toLowerCase` on ASCII letters. */
  function ToLower(s: string): (r: string)
    ensures |r| == |s|
    ensures forall k :: 0 <= k < |s| ==> r[k] == LowerChar(s[k])
  {
    if |s| == 0 then [] else [LowerChar(s[0])] + ToLower(s[1..])
  }

  /** Lowering case neither creates nor removes white space, so the client's
      blank check on the raw query agrees with the trimmed, lowered query. */
  lemma LowerKeepsBlankness(s: string)
    ensures Trim(ToLower(s)) == [] <==> Trim(s) == []
  {
    TrimEmptyIffBlank(s);
    TrimEmptyIffBlank(ToLower(s));
    LowerBlank(s);
  }

  lemma LowerBlank(s: string)
    ensures IsBlank(ToLower(s)) <==> IsBlank(s)
  {
    var l := ToLower(s);
    forall k | 0 <= k < |s| ensures IsSpace(l[k]) <==> IsSpace(s[k]) {
      assert l[k] == LowerChar(s[k]);
    }
  }

  /** `q` occurs in `s` starting at position `k`. */
  ghost predicate OccursAt(s: string, q: string, k: int) {
    0 <= k && k + |q| <= |s| && s[k..k + |q|] == q
  }

  /** `String.prototype.includes`: `q` occurs somewhere in `s`. */
  function Contains(s: string, q: string): (b: bool)
    ensures b <==> exists k :: OccursAt(s, q, k)
  {
    if |q| > |s| then
      assert forall k :: !OccursAt(s, q, k);
      false
    else if s[..|q|] == q then
      assert OccursAt(s, q, 0);
      true
    else
      var b := Contains(s[1..], q);
      assert forall k :: OccursAt(s[1..], q, k) ==> OccursAt(s, q, k + 1) by {
        forall k | OccursAt(s[1..], q, k) ensures OccursAt(s, q, k + 1) {
          assert s[1..][k..k + |q|] == s[k + 1..k + 1 + |q|];
        }
      }
      assert forall k :: OccursAt(s, q, k) ==> k > 0 && OccursAt(s[1..], q, k - 1) by {
        forall k | OccursAt(s, q, k) ensures k > 0 && OccursAt(s[1..], q, k - 1) {
          assert k != 0;
          assert s[1..][k - 1..k - 1 + |q|] == s[k..k + |q|];
        }
      }
      b
  }

  /** Lexicographic order by code point: `a` sorts strictly before `b`. */
  predicate LexLess(a: string, b: string) {
    if |a| == 0 then |b| > 0
    else if |b| == 0 then false
    else a[0] < b[0] || (a[0] == b[0] && LexLess(a[1..], b[1..]))
  }

  lemma {:induction false} LexLessIrreflexive(a: string)
    ensures !LexLess(a, a)
  {
    if |a| > 0 { LexLessIrreflexive(a[1..]); }
  }

  lemma {:induction false} LexLessTransitive(a: string, b: string, c: string)
    requires LexLess(a, b) && LexLess(b, c)
    ensures LexLess(a, c)
  {
    if |a| > 0 && |b| > 0 && |c| > 0 && a[0] == b[0] == c[0] {
      LexLessTransitive(a[1..], b[1..], c[1..]);
    }
  }

  /** Distinct strings are always ordered one way or the other. */
  lemma {:induction false} LexLessTotal(a: string, b: string)
    ensures a == b || LexLess(a, b) || LexLess(b, a)
  {
    if |a| > 0 && |b| > 0 && a[0] == b[0] {
      LexLessTotal(a[1..], b[1..]);
      if a[1..] == b[1..] { assert a == [a[0]] + a[1..] && b == [b[0]] + b[1..]; }
    }
  }
}

=== FILE: transaction.dfy ===
/** The transaction document and the guarantees its schema gives the store
    (server/models/Transaction.js): required fields, the `type` enum and its
    default, and the sparse unique index on `idempotencyKey`. The document
    store itself is a sequence of documents in insertion order. */
module Schema {
  import opened Wrappers
  import Seqs

  type Id = string
  type UserId = string
  /** An exact decimal amount of rupees held as a whole number of paise, so that
      the Decimal128 value is represented without binary rounding. */
  type Paise = int
  /** A calendar date as milliseconds since the epoch (what `getTime` returns). */
  type Date = int

  const Expense: string := "expense"
  const Income: string := "income"

  datatype Transaction = Transaction(
    id: Id,
    owner: UserId,
    kind: string,
    amount: Paise,
    category: string,
    description: string,
    date: Date,
    key: Option<string>)

  /** The `type` enum. */
  predicate KindAllowed(k: string) {
    k == Expense || k == Income
  }

  /** Schema validation, run on every create and save: `user`, `category` and
      `description` are required (a required string may not be empty), and
      `type` must be one of the enum values. `amount` and `date` are always
      present in this model. */
  predicate Conforms(t: Transaction) {
    && t.owner != ""
    && KindAllowed(t.kind)
    && t.category != ""
    && t.description != ""
  }

  /** A document built from its fields; an omitted `type` takes the default. */
  function NewDocument(id: Id, owner: UserId, kind: Option<string>, amount: Paise,
                       category: string, description: string, date: Date,
                       key: Option<string>): Transaction
  {
    Transaction(id, owner, kind.GetOr(Expense), amount, category, description, date, key)
  }

  /** A new document conforms exactly when its required strings are non-empty
      and its `type` is omitted (so defaults to "expense") or one of the enum. */
  lemma NewDocumentConforms(id: Id, owner: UserId, kind: Option<string>, amount: Paise,
                            category: string, description: string, date: Date,
                            key: Option<string>)
    ensures NewDocument(id, owner, None, amount, category, description, date, key).kind == Expense
    ensures Conforms(NewDocument(id, owner, kind, amount, category, description, date, key))
        <==> owner != "" && category != "" && description != ""
             && (kind.None? || KindAllowed(kind.value))
  {
  }

  datatype Store = Store(records: seq<Transaction>)

  predicate IdsUnique(rs: seq<Transaction>) {
    forall i, j :: 0 <= i < j < |rs| ==> rs[i].id != rs[j].id
  }

  /** The sparse unique index: documents that carry a key carry distinct keys;
      documents without one never conflict. */
  predicate KeysUnique(rs: seq<Transaction>) {
    forall i, j :: 0 <= i < j < |rs| && rs[i].key.Some? ==> rs[i].key != rs[j].key
  }

  /** What the schema and its indexes guarantee of every stored document. */
  predicate Valid(s: Store) {
    && (forall t :: t in s.records ==> Conforms(t))
    && IdsUnique(s.records)
    && KeysUnique(s.records)
  }

  /** `findById`: the first document with the given id. */
  function FindById(rs: seq<Transaction>, id: Id): (r: Option<Transaction>)
    ensures r.Some? ==> r.value in rs && r.value.id == id
    ensures r.None? <==> forall t :: t in rs ==> t.id != id
  {
    if |rs| == 0 then None
    else if rs[0].id == id then Some(rs[0])
    else FindById(rs[1..], id)
  }

  /** `findOne({ idempotencyKey })`: the first document carrying key `k`. */
  function FindByKey(rs: seq<Transaction>, k: string): (r: Option<Transaction>)
    ensures r.Some? ==> r.value in rs && r.value.key == Some(k)
    ensures r.None? <==> forall t :: t in rs ==> t.key != Some(k)
  {
    if |rs| == 0 then None
    else if rs[0].key == Some(k) then Some(rs[0])
    else FindByKey(rs[1..], k)
  }

  /** With unique ids, the lookup by id finds the one document with that id. */
  lemma {:induction false} FindByIdUnique(rs: seq<Transaction>, t: Transaction)
    requires IdsUnique(rs) && t in rs
    ensures FindById(rs, t.id) == Some(t)
  {
    if rs[0] != t {
      assert rs[0].id != t.id by {
        var i :| 0 <= i < |rs| && rs[i] == t;
        assert i != 0;
      }
      assert t in rs[1..];
      FindByIdUnique(rs[1..], t);
    }
  }

  /** With unique keys, the lookup by key finds the one document with that key. */
  lemma {:induction false} FindByKeyUnique(rs: seq<Transaction>, t: Transaction)
    requires KeysUnique(rs) && t in rs && t.key.Some?
    ensures FindByKey(rs, t.key.value) == Some(t)
  {
    if rs[0] != t {
      assert rs[0].key != t.key by {
        var i :| 0 <= i < |rs| && rs[i] == t;
        assert i != 0;
      }
      assert t in rs[1..];
      FindByKeyUnique(rs[1..], t);
    }
  }

  datatype StoreError = ValidationFailed | DuplicateId | DuplicateKey

  /** `Model.create`: validate, then insert subject to the unique indexes on
      `_id` and `idempotencyKey`. */
  function Insert(s: Store, t: Transaction): (r: Result<Store, StoreError>)
    ensures r.Success? ==> r.value.records == s.records + [t]
    ensures r.Success? <==>
              && Conforms(t)
              && (forall u :: u in s.records ==> u.id != t.id)
              && (t.key.Some? ==> forall u :: u in s.records ==> u.key != t.key)
    ensures Valid(s) && r.Success? ==> Valid(r.value)
  {
    if !Conforms(t) then Failure(ValidationFailed)
    else if FindById(s.records, t.id).Some? then Failure(DuplicateId)
    else if t.key.Some? && FindByKey(s.records, t.key.value).Some? then Failure(DuplicateKey)
    else Success(Store(s.records + [t]))
  }

  /** Every document with `t`'s id replaced by `t`, the others kept in place. */
  function ReplaceById(rs: seq<Transaction>, t: Transaction): (r: seq<Transaction>)
    ensures |r| == |rs|
    ensures forall i :: 0 <= i < |rs| ==> r[i] == if rs[i].id == t.id then t else rs[i]
  {
    if |rs| == 0 then []
    else [if rs[0].id == t.id then t else rs[0]] + ReplaceById(rs[1..], t)
  }

  /** Some document other than the one with `t`'s id already carries `t`'s key. */
  function KeyTakenByOther(rs: seq<Transaction>, t: Transaction): (b: bool)
    ensures b <==> t.key.Some? && exists u :: u in rs && u.id != t.id && u.key == t.key
  {
    if |rs| == 0 then false
    else if t.key.Some? && rs[0].id != t.id && rs[0].key == t.key then true
    else
      assert rs == [rs[0]] + rs[1..];
      KeyTakenByOther(rs[1..], t)
  }

  /** `document.save()` on a document already in the store: validate, then write
      it back in place subject to the unique key index. */
  function Save(s: Store, t: Transaction): (r: Result<Store, StoreError>)
    ensures r.Success? ==> r.value.records == ReplaceById(s.records, t)
    ensures r.Success? <==>
              && Conforms(t)
              && (t.key.Some? ==> forall u :: u in s.records && u.id != t.id ==> u.key != t.key)
    ensures Valid(s) && r.Success? ==> Valid(r.value)
  {
    if !Conforms(t) then Failure(ValidationFailed)
    else if KeyTakenByOther(s.records, t) then Failure(DuplicateKey)
    else
      var r := ReplaceById(s.records, t);
      if Valid(s) then
        ReplaceKeepsValid(s, t);
        Success(Store(r))
      else Success(Store(r))
  }

  lemma ReplaceKeepsValid(s: Store, t: Transaction)
    requires Valid(s) && Conforms(t)
    requires t.key.Some? ==> forall u :: u in s.records && u.id != t.id ==> u.key != t.key
    ensures Valid(Store(ReplaceById(s.records, t)))
  {
    ReplaceKeepsConforming(s.records, t);
    ReplaceKeepsIds(s.records, t);
    var r := ReplaceById(s.records, t);
    forall i, j | 0 <= i < j < |r| && r[i].key.Some? ensures r[i].key != r[j].key {
      ReplacedPair(s.records, t, i, j);
    }
  }

  lemma ReplaceKeepsConforming(rs: seq<Transaction>, t: Transaction)
    requires forall u :: u in rs ==> Conforms(u)
    requires Conforms(t)
    ensures forall u :: u in ReplaceById(rs, t) ==> Conforms(u)
  {
    var r := ReplaceById(rs, t);
    forall u | u in r ensures Conforms(u) {
      var i :| 0 <= i < |r| && r[i] == u;
      if rs[i].id != t.id { assert rs[i] in rs; }
    }
  }

  lemma ReplaceKeepsIds(rs: seq<Transaction>, t: Transaction)
    requires IdsUnique(rs)
    ensures IdsUnique(ReplaceById(rs, t))
  {
    var r := ReplaceById(rs, t);
    assert forall i :: 0 <= i < |r| ==> r[i].id == rs[i].id;
  }

  lemma ReplacedPair(rs: seq<Transaction>, t: Transaction, i: int, j: int)
    requires IdsUnique(rs) && KeysUnique(rs)
    requires t.key.Some? ==> forall u :: u in rs && u.id != t.id ==> u.key != t.key
    requires 0 <= i < j < |rs|
    requires ReplaceById(rs, t)[i].key.Some?
    ensures ReplaceById(rs, t)[i].key != ReplaceById(rs, t)[j].key
  {
    var r := ReplaceById(rs, t);
    if rs[i].id == t.id {
      assert rs[j].id != t.id;
      assert rs[j] in rs;
    } else if rs[j].id == t.id {
      assert rs[i] in rs;
    }
  }

  /** `document.deleteOne()`: every document with the id is removed, the others
      stay in their order. */
  function RemoveById(s: Store, id: Id): (r: Store)
    ensures forall u :: u in r.records <==> u in s.records && u.id != id
    ensures Seqs.IsSubseq(r.records, s.records)
    ensures Valid(s) ==> Valid(r)
  {
    var rs := Seqs.Filter((u: Transaction) => u.id != id, s.records);
    SubseqKeepsUnique(rs, s.records);
    Store(rs)
  }

  /** Deleting documents never breaks uniqueness. */
  lemma {:induction false} SubseqKeepsUnique(r: seq<Transaction>, s: seq<Transaction>)
    requires Seqs.IsSubseq(r, s)
    ensures IdsUnique(s) ==> IdsUnique(r)
    ensures KeysUnique(s) ==> KeysUnique(r)
    decreases |s|
  {
    if |r| > 0 {
      if r[0] == s[0] && Seqs.IsSubseq(r[1..], s[1..]) {
        SubseqKeepsUnique(r[1..], s[1..]);
        SubseqMembers(r[1..], s[1..]);
        forall j | 0 < j < |r| ensures exists k :: 0 < k < |s| && s[k] == r[j] {
          assert r[j] == r[1..][j - 1] && r[1..][j - 1] in r[1..];
          var k :| 0 <= k < |s[1..]| && s[1..][k] == r[j];
          assert s[k + 1] == r[j];
        }
        if IdsUnique(s) {
          forall i, j | 0 <= i < j < |r| ensures r[i].id != r[j].id {
            if i > 0 { assert r[i] == r[1..][i - 1] && r[j] == r[1..][j - 1]; }
            else { var k :| 0 < k < |s| && s[k] == r[j]; }
          }
        }
        if KeysUnique(s) {
          forall i, j | 0 <= i < j < |r| && r[i].key.Some? ensures r[i].key != r[j].key {
            if i > 0 { assert r[i] == r[1..][i - 1] && r[j] == r[1..][j - 1]; }
            else { var k :| 0 < k < |s| && s[k] == r[j]; }
          }
        }
      } else {
        SubseqKeepsUnique(r, s[1..]);
        if IdsUnique(s) { assert IdsUnique(s[1..]); }
        if KeysUnique(s) { assert KeysUnique(s[1..]); }
      }
    }
  }

  lemma {:induction false} SubseqMembers<T>(r: seq<T>, s: seq<T>)
    requires Seqs.IsSubseq(r, s)
    ensures forall x :: x in r ==> x in s
    decreases |s|
  {
    if |r| > 0 {
      if r[0] == s[0] && Seqs.IsSubseq(r[1..], s[1..]) {
        SubseqMembers(r[1..], s[1..]);
        assert r == [r[0]] + r[1..] && s == [s[0]] + s[1..];
      } else {
        SubseqMembers(r, s[1..]);
        assert s == [s[0]] + s[1..];
      }
    }
  }
}

=== FILE: wrappers.dfy ===
/** Optional values: a JSON field that may be absent, a lookup that may miss. */
module Wrappers {

  datatype Option<+T> = None | Some(value: T) {

    /** The carried value, or `default` when absent (JavaScript's `x ?? default`). */
    function GetOr(default: T): T {
      match this
      case Some(v) => v
      case None => default
    }
  }

  /** A success value or an error value. */
  datatype Result<+R, +E> = Success(value: R) | Failure(error: E)
}
